=== FILE: README.md ===
# Transmoglyphier glyph compositor, modelled in Dafny

This project models the glyph compositing engine of transmoglyphier
(`src/transmoglyphier/glyphs.py`, class `EnGlyph`). The engine draws text as
"supercells": each character becomes a block of terminal cells `fixed lines`
rows tall, taken from a declarative glyph face. It has four parts.

- **Face loading and fallback merge** (`load_glyphs`). The face's
  `character` map is filled in from a fallback face named by its `block` key.
  Keys the face already has are never overwritten. Modelled in `merge.dfy`
  (module `Merge`).
- **Supercell layout** (`en_glyph`). This part covers:
  - per-character glyph and hint resolution, including the synthesised box
    glyph for characters the face lacks (`faces.dfy`, `default_glyph.dfy`,
    `hex.dfy`);
  - horizontal padding, the tracking "wedge" and vertical padding
    (`padding.dfy`);
  - appending one padded slice per character to each row accumulator
    (`supercell.dfy`).
- **Prechunking** (`_prechunk`). It renders the console segments in order,
  the previous token starting from a space once per render and then carried
  across segments, and drops the trailing newline's chunk (`strips.dfy`).
- **Transposition** (`_chunks_to_strips`). It turns the per-segment chunks
  into per-row lines (`strips.dfy`).

The face is an immutable datatype whose every key is optional, because the
JSON asset may leave any key out. Keys the compositor never reads are
summarised by one flag, since they still make the decoded object truthy.
`Faces.Required` gathers the six keys composition cannot do without. The
exceptions the code raises on purpose or through a missing key or row
(`KeyError`, `IndexError`, the failed row-count assertion) are `Fault`
constructors, carried in a `Result`; the resource and float limits listed
under "Left out" are not.

Modelling choices:
- `tracking` is a JSON number (int or float). It is modelled as an exact
  `real`, and `math.ceil` is written with `.Floor`.
- `math.ceil`/`math.floor` of `d / 2.0` use Dafny's `/` on unbounded
  integers. With the positive divisor 2 this rounds down, like Python's
  floor. This is exact; Python's float division is exact only while the
  slack `d` stays within 2**53 in magnitude (see "Left out").
- Python's `" " * n` is empty for `n <= 0`, and `Supercell.Spaces` clamps the
  same way.
- The bold/normal choice comes from the widget's own text style, not from
  the segment's style. It is the parameter `bold`.
- `_load_jFace` (reading a package resource and decoding JSON) is the
  function parameter `load`. It returns `None` whenever the file is missing
  or does not decode.
- `Console().render(...)` is outside the model. `Strips.Prechunk` takes the
  rendered `(text, style)` segments as input, and styles are an opaque type
  parameter.

Behaviour of the code worth knowing:
- A bold/normal variant glyph that lacks the requested weight does not fall
  back to the other weight. The code keeps the mapping itself as the glyph.
  Indexing it by row then fails, so `Faces.GlyphRows` yields `None`, and
  `Supercell.PlaceToken` fails with `GlyphRowMissing` exactly when a row
  inside the glyph band has to be read.
- A character entry without a `glyph` key is itself the variant mapping: its
  own `normal` and `bold` row lists are the glyph.
- The space (code point 32) is not in the printable range 33..126. A face
  without a space entry therefore shows the hex box `0┬0 / ├ ┤ / 2┴0` for it.
- Only the face named directly by `block` is merged. The fallback's own
  `block` key is not followed.
- The widget's `Face` attribute names the fallback once the fallback file
  loads, even when nothing is merged because that file decoded to an empty
  object. This is `Merge.Loaded.faceName`.

## Model

| member | source | states |
|---|---|---|
| `Faces.Required` | src/transmoglyphier/glyphs.py:107-115 | Composition can proceed exactly when `fixed lines`, `fixed columns`, `align`, `tracking`, `monospace` and `character` are all present; otherwise the fault is MissingFaceData. `adjacent pairs` is optional and defaults to empty. |
| `Faces.Truthy` | src/transmoglyphier/glyphs.py:57-58 | A decoded object is truthy exactly when it is not the empty object `{}`, counting keys the compositor never reads. |
| `Faces.GlyphRows` | src/transmoglyphier/glyphs.py:138-143 | A flat glyph yields its rows for either weight. A `glyph` mapping yields its `bold` rows under bold and its `normal` rows otherwise; an entry without a `glyph` key does the same with its own `normal`/`bold` keys. The requested key being absent leaves nothing indexable. |
| `Faces.GlyphRowsThroughVariant` | src/transmoglyphier/glyphs.py:138-143 | An entry without `glyph` reads exactly like one whose `glyph` is the mapping of its own rows, and a flat glyph does not depend on the weight. |
| `DefaultGlyph.DefaultRows` | src/transmoglyphier/glyphs.py:122-126 | The synthesised glyph is 3 rows of 3 characters. For code points 33..126 it is `┌┬┐ / ├c┤ / └┴┘` with the character in the centre. For any other code point it is `h0┬h1 / ├ ┤ / h2┴h3`, where h0..h3 are the first four digits of its zero-padded lowercase hex. |
| `DefaultGlyph.DefaultGlyphShowsCodePoint` | src/transmoglyphier/glyphs.py:124-126 | For a non-printable character of the Basic Multilingual Plane, the four corner digits of its default glyph decode back to its code point. |
| `DefaultGlyph.DefaultGlyphExamples` | src/transmoglyphier/glyphs.py:122-126 | Worked cases: 'A' gives `┌┬┐/├A┤/└┴┘`, the space gives `0┬0/├ ┤/2┴0`, and U+1F600 gives `1┬f/├ ┤/6┴0`. |
| `Hex.Format04xRoundTrip` | src/transmoglyphier/glyphs.py:125 | `"{0:04x}"` formatting decodes back to the number it formatted. |
| `Hex.Format04xWidth` | src/transmoglyphier/glyphs.py:125 | The formatted code point is exactly four digits long iff the code point is below 0x10000. |
| `Padding.Ceil` | src/transmoglyphier/glyphs.py:171-173 | `math.ceil`: the least integer not below its argument. |
| `Padding.FloorHalf` | src/transmoglyphier/glyphs.py:154-160 | `math.floor(d/2.0)`, equal to the real floor of d/2. |
| `Padding.CeilHalf` | src/transmoglyphier/glyphs.py:154-160 | `math.ceil(d/2.0)`, equal to the real ceiling of d/2. |
| `Padding.HorizontalPad` | src/transmoglyphier/glyphs.py:146-162 | For a monospace glyph, `l_pad + Whint + r_pad == fixed columns` under left, right and centre alignment. Left alignment has `l_pad = 0` and right alignment has `r_pad = 0`. Centre puts the odd column on the left after a space and on the right otherwise. A proportional glyph gets no padding. |
| `Padding.Wedge` | src/transmoglyphier/glyphs.py:165-174 | No wedge when `previous+current` is an adjacent pair or tracking is not positive. Otherwise the wedge is the ceiling of the tracking when both glyphs allow kerning, else the ceiling of the tracking minus the previous glyph's columns, and only a positive value is inserted. |
| `Padding.AddWedge` | src/transmoglyphier/glyphs.py:174-178 | The wedge goes to the right pad under left alignment and to the left pad otherwise. Pads never shrink, and the total grows by exactly the wedge. |
| `Padding.VerticalPad` | src/transmoglyphier/glyphs.py:181-193 | `t_pad + Hhint + b_pad == fixed lines` in every branch. Both pads are zero at full height, top puts all slack below, bottom puts all slack above, and centre puts the odd row on top. |
| `Supercell.EntryFor` | src/transmoglyphier/glyphs.py:122-127 | A character in the face's map uses its entry; any other character gets the synthesised box glyph with no per-character overrides. |
| `Supercell.HintsFor` | src/transmoglyphier/glyphs.py:128-137 | Each of tracking, monospace, lines, columns and align is the entry's own value when present and the face default otherwise; kerning defaults to allowed. |
| `Supercell.MissingCharacterUsesFace` | src/transmoglyphier/glyphs.py:122-137 | A character the face lacks is drawn with its box glyph for either weight, under exactly the face's hints with kerning allowed. |
| `Supercell.WedgeFor` | src/transmoglyphier/glyphs.py:165-173 | The previous character's kerning flag and width come from its face entry (absent values: kerning allowed, face width); a previous character the face lacks counts as kerning and `fixed columns` wide, not as its 3-column box glyph. |
| `Supercell.LayoutGeometry` | src/transmoglyphier/glyphs.py:120-193 | The cell holds the glyph at its hinted height and width. A monospace glyph's pads plus width equal `fixed columns` plus the wedge, a proportional glyph's pads equal the wedge. Left alignment has no left pad; right alignment, or a proportional glyph not aligned left, has no right pad. Centring puts the odd column left after a space and right otherwise, before the wedge. The top pad follows the vertical alignment, with the odd row on top when centred. |
| `Supercell.PlaceToken` | src/transmoglyphier/glyphs.py:196-201 | It fails, with GlyphRowMissing for the token, exactly when a row inside the band `[t_pad, t_pad+Hhint)` has no glyph row to read; otherwise it keeps the number of rows. |
| `Supercell.PlaceTokenRow` | src/transmoglyphier/glyphs.py:196-201 | After a successful placement, row r keeps its old text and gains `l_pad` spaces, then `Whint` spaces (row outside the band) or glyph row `r - t_pad` (row inside), then `r_pad` spaces. |
| `Supercell.Compose` | src/transmoglyphier/glyphs.py:120-203 | The fold over the text keeps the number of rows. The final previous token is the text's last character, or the incoming one for empty text. A failure is GlyphRowMissing for some character of the text. With no rows it cannot fail. |
| `Supercell.ComposeOne` | src/transmoglyphier/glyphs.py:120-203 | Composing a single character is `PlaceToken` of that character (its failure included), after which it is the previous token. |
| `Supercell.EnGlyph` | src/transmoglyphier/glyphs.py:100-212 | A missing required key gives MissingFaceData, and a negative `fixed lines` fails the row-count assertion. Otherwise it fails exactly when composing the text over `fixed lines` empty rows fails, with that error, and on success segment i is composed row i. There are exactly `fixed lines` segments, all with the caller's style; for empty text they are all empty. |
| `Supercell.PlaceTokenKeepsRowsEven` | src/transmoglyphier/glyphs.py:196-201 | A glyph whose rows all have its hinted width, and at least its hinted count, is placed without failure. Every row grows by the same width, so rows of equal length stay equal. |
| `Supercell.ComposeKeepsRowsEven` | src/transmoglyphier/glyphs.py:120-203 | Over a whole text of such glyphs, equal-length accumulator rows stay equal-length. |
| `Supercell.EnGlyphEvenRows` | src/transmoglyphier/glyphs.py:117-210 | For such text, en_glyph succeeds with `fixed lines` segments of one common width. |
| `Supercell.ComposeSplits` | src/transmoglyphier/glyphs.py:155-203 | Composing `s + t` equals composing `s` and then `t`, with `s`'s last character as the previous token. So each character's centre bias and wedge depend only on the character just before it. |
| `Supercell.CentreBiasAlternates` | src/transmoglyphier/glyphs.py:153-178 | Two centred monospace glyphs with odd slack, right after a space, at any tracking: before its wedge the first has one more column on the left than on the right, and the second one more on the right than on the left. |
| `Merge.FillMissing` | src/transmoglyphier/glyphs.py:58-61 | Afterwards the key set is primary ∪ fallback. Primary entries are unchanged, and fallback entries fill only the missing keys. |
| `Merge.FillMissingLoop` | src/transmoglyphier/glyphs.py:59-61 | The key-by-key insertion loop produces exactly the fill-in map. |
| `Merge.FillMissingIdempotent` | src/transmoglyphier/glyphs.py:59-61 | A second fill-in from the same fallback changes nothing. |
| `Merge.ReplaceSpaces` | src/transmoglyphier/glyphs.py:55 | Every space becomes `_`, and every other character stays in place. |
| `Merge.FallbackName` | src/transmoglyphier/glyphs.py:55-56 | The fallback name is `block` (or the face's own name without `block`) with each space replaced by `_` and every other character kept; it contains no space. Without a `block` key it equals the face's own name (so no fallback is loaded) exactly when that name has no space. |
| `Merge.FallbackNameSettles` | src/transmoglyphier/glyphs.py:55-57 | A fallback face without its own `block` names itself as its fallback, so a second load from it would stop there. |
| `Merge.MergeFace` | src/transmoglyphier/glyphs.py:58-61 | A fallback without `character` fails. A non-empty fallback map with no primary map fails. Otherwise only the character map changes: it becomes primary ∪ fallback with primary entries winning. |
| `Merge.MergeFaceIdempotent` | src/transmoglyphier/glyphs.py:53-61 | Merging the same fallback into an already merged face gives the same face. |
| `Merge.LoadGlyphs` | src/transmoglyphier/glyphs.py:40-61 | It fails with FaceNotLoaded iff the primary does not load, and with CharactersMissing when the merge reaches an absent `character` map. Without a merge the loaded face is the primary file unchanged. A merge happens when the fallback name differs from the face name and the fallback loads as a non-empty object. The widget's face name becomes the fallback's whenever the fallback file loads. |
| `Merge.LoadGlyphsKeepsPrimary` | src/transmoglyphier/glyphs.py:53-61 | A loaded face differs from its own file only in the character map. It keeps every key and entry of that map, and after a merge its keys are exactly primary ∪ fallback. |
| `Strips.Transpose` | src/transmoglyphier/glyphs.py:72-84 | It fails when there is no first chunk or some chunk is taller than the first. Otherwise it has as many lines as the first chunk has segments. |
| `Strips.ColumnOfRectangular` | src/transmoglyphier/glyphs.py:74-79 | When all chunks have equal height, line n is the n-th segment of every chunk, in chunk order. |
| `Strips.TransposeRectangular` | src/transmoglyphier/glyphs.py:72-84 | Transposing equal-height chunks gives `height` lines of one segment per chunk, with `lines[n][k] == chunks[k][n]`. |
| `Strips.TransposeTwice` | src/transmoglyphier/glyphs.py:72-84 | Transposing a non-empty rectangular pile twice returns the pile. |
| `Strips.ChunksToStrips` | src/transmoglyphier/glyphs.py:72-84 | The append loop of `_chunks_to_strips` computes exactly the transposition, failures included. |
| `Strips.RenderChunks` | src/transmoglyphier/glyphs.py:90-95 | It gives one chunk per rendered segment, each `fixed lines` tall, and every segment of chunk k carries segment k's style. |
| `Strips.Prechunk` | src/transmoglyphier/glyphs.py:87-98 | With at most one rendered segment (only the newline) it fails. On success there are `fixed lines` lines, each with one segment per rendered segment except the dropped newline, styled like its source segment. |
| `Strips.TransposeKeepsStyles` | src/transmoglyphier/glyphs.py:74-84 | Transposing equal-height chunks whose segments carry their own segment's style gives lines of one segment per chunk, the k-th styled by segment k. |
| `Strips.PrechunkTransposes` | src/transmoglyphier/glyphs.py:96-98 | A successful prechunk is the transposition of all chunks but the last. |
| `Strips.RenderChunksThreadsPrev` | src/transmoglyphier/glyphs.py:90-94 | Chunk k is en_glyph of segment k with the last character rendered before it as previous token. |
| `Strips.ChunkFromSpace` | src/transmoglyphier/glyphs.py:90-94 | From the start of a render, that previous token is a space until a character has been rendered. |
| `Strips.PrechunkLines` | src/transmoglyphier/glyphs.py:87-98 | Line n, segment k on screen is row n of en_glyph applied to segment k. Its previous token is the last character before that segment, or a space at the start of every render. |

## Left out

- The block-pixel encoder (quadrant/sextant/octant lookup tables, colour averaging) and the image driver are not in the modelled files, so they are not modelled.
- `src/transmoglyphier/transmoglyphier.py` (the Textual application: buttons, table, input events, CSS) has no computable logic of the engine.
- `tooling/pictogplyph.py` rasterises fonts through PIL and rich_pixels, which are foreign libraries.
- `_load_jFace` file access and JSON decoding are the `load` parameter. A decoded value of the wrong JSON type (a list, or a string where a number is expected) is not modelled. Neither are keys of the `character` map longer than one character: a lookup by one character never finds them, but a fallback whose map holds only such keys still enters the merge loop, which raises KeyError when the primary has no `character` map, while the model sees an empty fallback map and loads the primary unchanged.
- Python truthiness of non-boolean `monospace`/`kerning` values is not modelled: both are booleans here. JSON floats are exact reals, so floating-point rounding of `tracking` is not modelled.
- Sizes beyond Python's limits are not modelled: integers are unbounded here. `['']*bbox_height` and `" "*l_pad` (glyphs.py:117,198,201) raise OverflowError above `Py_ssize_t` and MemoryError when too large to allocate, and `(bbox_width - Whint)/2.0` (glyphs.py:154,191) raises OverflowError beyond the float range and rounds once the slack exceeds 2**53, where the pads no longer sum to the slack.
- Non-finite `tracking` (`Infinity`, `NaN`, which Python's JSON decoder accepts) is not modelled: `tracking` is a finite real. With `Infinity` the code raises OverflowError in `math.ceil` (glyphs.py:171,173), which has no `Fault` constructor.
- Lone surrogate code points U+D800..U+DFFF are not modelled: a Dafny `char` is a Unicode scalar value, while a Python `str` may hold a surrogate, which the code would draw as a hex box (U+D800 as `d┬8/├ ┤/0┴0`).
- `Console().render`, rich `Segment`/`Style`, Textual `Strip`/`Static`, `render_line` (its never-updated cache and its row lookup) and the `__str__` logging are outside the model.
- Per-row decoration confinement and anti-adjacent pairs appear nowhere in `glyphs.py`, so they are not modelled.
- `Supercell.EnGlyphEvenRows`: the condition that every glyph fits is sufficient, not necessary. Rows of text whose glyphs have rows wider or narrower than their hinted width may differ in length, and the code does not prevent that.
- `DefaultGlyph.DefaultGlyphShowsCodePoint`: only covers the Basic Multilingual Plane. Beyond it, `DefaultGlyph.DefaultRows` states that the corners are the first four hex digits, but the numeric value of that prefix is not proved.

=== FILE: default_glyph.dfy ===
/** The box glyph synthesised for a character the face has no entry for
    (glyphs.py, en_glyph). Printable ASCII shows the character itself between
    box-drawing bars; every other character shows its code point in hex,
    two digits above and two below a cross. */
module DefaultGlyph {
  import opened Wrappers
  import opened Faces
  import opened Hex

  /** Code points 33..126: printable ASCII other than the space. */
  predicate Printable(c: char) {
    32 < c as int < 127
  }

  /** Rows of the synthesised glyph for `c`. */
  function DefaultRows(c: char): (rows: seq<string>)
    ensures |rows| == 3
    ensures forall i | 0 <= i < 3 :: |rows[i]| == 3
    ensures Printable(c) ==>
      && rows[0] == "┌┬┐" && rows[2] == "└┴┘"
      && rows[1][0] == '├' && rows[1][1] == c && rows[1][2] == '┤'
    ensures !Printable(c) ==>
      && rows[1] == "├ ┤" && rows[0][1] == '┬' && rows[2][1] == '┴'
      && [rows[0][0], rows[0][2], rows[2][0], rows[2][2]] == Format04x(c as int)[..4]
  {
    if Printable(c) then
      ["┌┬┐", "├" + [c] + "┤", "└┴┘"]
    else
      var h := Format04x(c as int);
      [[h[0]] + "┬" + [h[1]], "├ ┤", [h[2]] + "┴" + [h[3]]]
  }

  /** The entry used for a missing character: a glyph and no overrides. */
  function DefaultEntry(c: char): CharEntry {
    CharEntry(Some(Flat(DefaultRows(c))), None, None, None, None, None, None, None, None)
  }

  /** For a non-printable character of the Basic Multilingual Plane, the four
      corner digits of its default glyph read back as its code point. */
  lemma DefaultGlyphShowsCodePoint(c: char)
    requires !Printable(c) && c as int < 0x1_0000
    ensures var rows := DefaultRows(c);
      HexValue([rows[0][0], rows[0][2], rows[2][0], rows[2][2]]) == c as int
  {
    var h := Format04x(c as int);
    Format04xWidth(c as int);
    Format04xRoundTrip(c as int);
    assert h[..4] == h;
  }

  /** Worked instances: a letter, the space, and a code point beyond the
      Basic Multilingual Plane whose first four hex digits are shown. */
  lemma DefaultGlyphExamples()
    ensures DefaultRows('A') == ["┌┬┐", "├A┤", "└┴┘"]
    ensures DefaultRows(' ') == ["0┬0", "├ ┤", "2┴0"]
    ensures DefaultRows('\U{1F600}') == ["1┬f", "├ ┤", "6┴0"]
  {
    assert "├" + ['A'] + "┤" == "├A┤";
    assert Format04x(32) == "0020";
    assert ['0'] + "┬" + ['0'] == "0┬0" && ['2'] + "┴" + ['0'] == "2┴0";
    assert Format04x(0x1F600) == "1f600";
    assert ['1'] + "┬" + ['f'] == "1┬f" && ['6'] + "┴" + ['0'] == "6┴0";
  }
}

=== FILE: faces.dfy ===
/** The glyph face asset as the compositor sees it once its JSON has been
    decoded: every key of the asset may be absent, so every field is optional.
    Keys the compositor never reads (name, version, ...) matter only to the
    object's truthiness, and are summarised by whether there are any. */
module Faces {
  import opened Wrappers

  /** An `align` pair: a horizontal and a vertical keyword. Only "left" and
      "right" (horizontally) and "top" and "bottom" (vertically) are
      recognised; every other keyword places the glyph in the centre. */
  datatype Align = Align(horizontal: string, vertical: string)

  /** A character's `glyph` value: either a flat list of row strings, or a
      mapping with optional "normal" and "bold" row lists. */
  datatype Glyph =
    | Flat(rows: seq<string>)
    | Variant(normal: Option<seq<string>>, bold: Option<seq<string>>)

  /** One entry of the face's `character` map: the glyph plus optional
      per-character overrides of the face defaults. An entry without a
      `glyph` key serves as its own variant mapping, so its own `normal` and
      `bold` row lists are kept too. */
  datatype CharEntry = CharEntry(
    glyph: Option<Glyph>,
    normal: Option<seq<string>>,
    bold: Option<seq<string>>,
    lines: Option<int>,
    columns: Option<int>,
    align: Option<Align>,
    tracking: Option<real>,   // a JSON number; ints and floats are both exact reals here
    monospace: Option<bool>,
    kerning: Option<bool>
  )

  /** A decoded face asset. `block` names the fallback face; `adjacentPairs`
      lists two-character strings that get no tracking wedge. */
  datatype Face = Face(
    fixedLines: Option<int>,
    fixedColumns: Option<int>,
    align: Option<Align>,
    tracking: Option<real>,
    monospace: Option<bool>,
    adjacentPairs: Option<set<string>>,
    block: Option<string>,
    characters: Option<map<char, CharEntry>>,
    otherKeys: bool           // the object has some key not listed above
  )

  /** The face fields composition reads, once all six required ones resolved;
      `pairs` is `adjacent pairs`, which defaults to the empty list. */
  datatype Box = Box(
    height: int,
    width: int,
    align: Align,
    tracking: real,
    monospace: bool,
    characters: map<char, CharEntry>,
    pairs: set<string>
  )

  /** The exceptions the Python code raises, one constructor per cause. */
  datatype Fault =
    | MissingFaceData           // a required face key is absent
    | GlyphRowMissing(token: char) // a glyph row is indexed that the glyph does not have
    | RowCountMismatch          // the row-count assertion fails (negative `fixed lines`)
    | FaceNotLoaded             // the primary face did not load
    | CharactersMissing         // a merge touches a `character` map that is absent
    | NothingRendered           // no chunk to pop, or no first chunk to transpose
    | ChunkOverflow             // a chunk has more segments than the first one

  /** The decoded empty object `{}`. */
  const EmptyObject := Face(None, None, None, None, None, None, None, None, false)

  /** Python truthiness of a decoded JSON object: it has at least one key. */
  function Truthy(f: Face): (b: bool)
    ensures b <==> f != EmptyObject
  {
    || f.fixedLines.Some? || f.fixedColumns.Some? || f.align.Some?
    || f.tracking.Some? || f.monospace.Some? || f.adjacentPairs.Some?
    || f.block.Some? || f.characters.Some? || f.otherKeys
  }

  /** The six keys composition requires, or MissingFaceData if any is absent. */
  function Required(f: Face): (r: Result<Box, Fault>)
    ensures r.Ok? <==>
      && f.fixedLines.Some? && f.fixedColumns.Some? && f.align.Some?
      && f.tracking.Some? && f.monospace.Some? && f.characters.Some?
    ensures r.Err? ==> r.error == MissingFaceData
    ensures r.Ok? ==>
      && Some(r.value.height) == f.fixedLines
      && Some(r.value.width) == f.fixedColumns
      && Some(r.value.align) == f.align
      && Some(r.value.tracking) == f.tracking
      && Some(r.value.monospace) == f.monospace
      && Some(r.value.characters) == f.characters
      && (f.adjacentPairs.Some? ==> Some(r.value.pairs) == f.adjacentPairs)
      && (f.adjacentPairs.None? ==> r.value.pairs == {})
  {
    if && f.fixedLines.Some? && f.fixedColumns.Some? && f.align.Some?
       && f.tracking.Some? && f.monospace.Some? && f.characters.Some?
    then
      Ok(Box(f.fixedLines.value, f.fixedColumns.value, f.align.value,
             f.tracking.value, f.monospace.value, f.characters.value,
             f.adjacentPairs.GetOr({})))
    else
      Err(MissingFaceData)
  }

  /** The mapping the weight is chosen from: the `glyph` value when it is a
      mapping, and the entry itself when it has no `glyph` key. */
  function VariantOf(e: CharEntry): Option<Glyph> {
    match e.glyph
    case None => Some(Variant(e.normal, e.bold))
    case Some(Flat(_)) => None
    case Some(g) => Some(g)
  }

  /** The row list chosen for `bold` weight, or None when the glyph stays a
      mapping (the requested weight is absent), which no row index can be
      read from. */
  function GlyphRows(e: CharEntry, bold: bool): (r: Option<seq<string>>)
    ensures e.glyph.Some? && e.glyph.value.Flat? ==> r == Some(e.glyph.value.rows)
    ensures e.glyph.Some? && e.glyph.value.Variant? && bold ==> r == e.glyph.value.bold
    ensures e.glyph.Some? && e.glyph.value.Variant? && !bold ==> r == e.glyph.value.normal
    ensures e.glyph.None? && bold ==> r == e.bold
    ensures e.glyph.None? && !bold ==> r == e.normal
  {
    match e.glyph
    case None => if bold then e.bold else e.normal
    case Some(Flat(rows)) => Some(rows)
    case Some(Variant(normal, boldRows)) => if bold then boldRows else normal
  }

  /** An entry without a `glyph` key reads exactly like one whose `glyph` is
      the mapping of its own `normal` and `bold` rows, and a flat glyph
      ignores the weight. */
  lemma GlyphRowsThroughVariant(e: CharEntry, bold: bool)
    ensures VariantOf(e).Some? ==>
      GlyphRows(e, bold) == GlyphRows(e.(glyph := VariantOf(e)), bold)
    ensures VariantOf(e).None? ==> GlyphRows(e, bold) == GlyphRows(e, !bold)
  {
  }
}

=== FILE: hex.dfy ===
/** Lowercase hexadecimal formatting of a code point, as Python's
    `"{0:04x}".format(n)` produces it: minimal digits, zero-padded on the
    left to at least four. `HexValue` is the decoder it round-trips with. */
module Hex {

  /** The lowercase hex digit of a value below 16. */
  function ToDigit(d: nat): (c: char)
    requires d < 16
    ensures IsHexDigit(c)
    ensures DigitValue(c) == d
  {
    if d < 10 then ('0' as int + d) as char else ('a' as int + d - 10) as char
  }

  /** The value of a lowercase hex digit; -1 for any other character. */
  function DigitValue(c: char): int {
    if '0' <= c <= '9' then c as int - '0' as int
    else if 'a' <= c <= 'f' then c as int - 'a' as int + 10
    else -1
  }

  predicate IsHexDigit(c: char) {
    '0' <= c <= '9' || 'a' <= c <= 'f'
  }

  function Pow16(k: nat): (p: nat)
    ensures p >= 1
  {
    if k == 0 then 1 else 16 * Pow16(k - 1)
  }

  /** Hexadecimal digits of `n`, most significant first, without leading zeros. */
  function Hex(n: nat): (s: string)
    ensures |s| >= 1
    ensures forall i | 0 <= i < |s| :: IsHexDigit(s[i])
    decreases n
  {
    if n < 16 then [ToDigit(n)] else Hex(n / 16) + [ToDigit(n % 16)]
  }

  /** Reads a string of hex digits back as a number, most significant first. */
  function HexValue(s: string): int {
    if s == [] then 0 else HexValue(s[..|s| - 1]) * 16 + DigitValue(s[|s| - 1])
  }

  /** `"{0:04x}".format(n)`. */
  function Format04x(n: nat): (s: string)
    ensures |s| >= 4
    ensures forall i | 0 <= i < |s| :: IsHexDigit(s[i])
  {
    var h := Hex(n);
    if |h| >= 4 then h else Zeros(4 - |h|) + h
  }

  function Zeros(k: nat): (z: string)
    ensures |z| == k
  {
    seq(k, _ => '0')
  }

  lemma {:induction false} HexRoundTrip(n: nat)
    ensures HexValue(Hex(n)) == n
    decreases n
  {
    if n >= 16 {
      var s := Hex(n);
      assert s[..|s| - 1] == Hex(n / 16);
      HexRoundTrip(n / 16);
    }
  }

  lemma {:induction false} ZerosValue(k: nat)
    ensures HexValue(Zeros(k)) == 0
  {
    if k > 0 {
      assert Zeros(k)[..k - 1] == Zeros(k - 1);
      ZerosValue(k - 1);
    }
  }

  /** Leading zeros do not change the value read back. */
  lemma {:induction false} ZeroPaddingValue(k: nat, s: string)
    ensures HexValue(Zeros(k) + s) == HexValue(s)
    decreases |s|
  {
    if s == [] {
      assert Zeros(k) + s == Zeros(k);
      ZerosValue(k);
    } else {
      var t := Zeros(k) + s;
      assert t[..|t| - 1] == Zeros(k) + s[..|s| - 1];
      ZeroPaddingValue(k, s[..|s| - 1]);
    }
  }

  /** The formatted code point decodes back to the code point. */
  lemma Format04xRoundTrip(n: nat)
    ensures HexValue(Format04x(n)) == n
  {
    HexRoundTrip(n);
    var h := Hex(n);
    if |h| < 4 {
      ZeroPaddingValue(4 - |h|, h);
    }
  }

  /** `n` needs at most `k` hex digits exactly when it is below 16^k. */
  lemma {:induction false} HexLength(n: nat, k: nat)
    requires k >= 1
    ensures |Hex(n)| <= k <==> n < Pow16(k)
    decreases n
  {
    if n >= 16 {
      if k == 1 {
        assert Pow16(1) == 16;
      } else {
        HexLength(n / 16, k - 1);
        assert n / 16 < Pow16(k - 1) <==> n < 16 * Pow16(k - 1);
      }
    } else {
      assert Pow16(k) == 16 * Pow16(k - 1);
    }
  }

  /** Exactly the code points of the Basic Multilingual Plane format in four
      digits; larger ones take five or six. */
  lemma Format04xWidth(n: nat)
    ensures |Format04x(n)| == 4 <==> n < 0x1_0000
  {
    HexLength(n, 4);
    assert Pow16(4) == 0x1_0000;
  }
}

=== FILE: merge.dfy ===
/** Loading a face and filling its character map from its fallback face
    (glyphs.py, EnGlyph.load_glyphs). Reading and decoding the asset file
    (`_load_jFace`) is the `load` parameter: it yields the decoded face, or
    None when the file is missing or does not decode. */
module Merge {
  import opened Wrappers
  import opened Faces

  /** The primary map with every fallback entry whose key it lacks. */
  function FillMissing<K, V>(primary: map<K, V>, fallback: map<K, V>): (m: map<K, V>)
    ensures m.Keys == primary.Keys + fallback.Keys
    ensures forall k | k in primary :: m[k] == primary[k]
    ensures forall k | k in fallback && k !in primary :: m[k] == fallback[k]
  {
    fallback + primary
  }

  /** The insertion loop of load_glyphs: each fallback key the primary map
      lacks is inserted with the fallback's entry. */
  method FillMissingLoop<K, V>(primary: map<K, V>, fallback: map<K, V>) returns (m: map<K, V>)
    ensures m == FillMissing(primary, fallback)
  {
    m := primary;
    var todo := fallback.Keys;
    while todo != {}
      invariant todo <= fallback.Keys
      invariant m.Keys == primary.Keys + (fallback.Keys - todo)
      invariant forall k | k in primary :: m[k] == primary[k]
      invariant forall k | k in m && k !in primary :: k in fallback && m[k] == fallback[k]
      decreases todo
    {
      var key :| key in todo;
      if key !in m {
        m := m[key := fallback[key]];
      }
      todo := todo - {key};
    }
    assert m == fallback + primary;
  }

  /** Filling in a second time from the same fallback changes nothing. */
  lemma FillMissingIdempotent<K, V>(primary: map<K, V>, fallback: map<K, V>)
    ensures FillMissing(FillMissing(primary, fallback), fallback) == FillMissing(primary, fallback)
  {
  }

  /** `s.replace(" ", "_")`. */
  function ReplaceSpaces(s: string): (r: string)
    ensures |r| == |s|
    ensures forall i | 0 <= i < |r| :: r[i] != ' '
    ensures forall i | 0 <= i < |s| && s[i] != ' ' :: r[i] == s[i]
    ensures forall i | 0 <= i < |s| && s[i] == ' ' :: r[i] == '_'
  {
    seq(|s|, i requires 0 <= i < |s| => if s[i] == ' ' then '_' else s[i])
  }

  /** The fallback face's name: the face's `block` key, else the face's own
      name, with spaces turned into underscores. */
  function FallbackName(primary: Face, name: string): (r: string)
    ensures var src := primary.block.GetOr(name);
      && |r| == |src|
      && forall i | 0 <= i < |r| :: r[i] == if src[i] == ' ' then '_' else src[i]
    ensures forall i | 0 <= i < |r| :: r[i] != ' '
    ensures primary.block.None? ==> (r == name <==> forall i | 0 <= i < |name| :: name[i] != ' ')
  {
    ReplaceSpaces(primary.block.GetOr(name))
  }

  /** A fallback face without a `block` key of its own names itself as its
      fallback, so loading it would stop there: the name is a fixed point. */
  lemma FallbackNameSettles(primary: Face, name: string, fallback: Face)
    requires fallback.block.None?
    ensures FallbackName(fallback, FallbackName(primary, name)) == FallbackName(primary, name)
  {
  }

  /** Copies the fallback's entries into the primary's character map. The
      loop walks `fallback['character']`, so a fallback without one fails;
      the primary's map is touched only if there is something to insert. */
  function MergeFace(primary: Face, fallback: Face): (r: Result<Face, Fault>)
    ensures fallback.characters.None? ==> r == Err(CharactersMissing)
    ensures fallback.characters.Some? && fallback.characters.value != map[] && primary.characters.None?
            ==> r == Err(CharactersMissing)
    ensures r.Err? ==> r.error == CharactersMissing
    ensures fallback.characters.Some? && (fallback.characters.value != map[] ==> primary.characters.Some?)
            ==> r.Ok?
    ensures r.Ok? ==> r.value.(characters := primary.characters) == primary
    ensures r.Ok? && primary.characters.Some? ==>
      && r.value.characters.Some?
      && r.value.characters.value.Keys == primary.characters.value.Keys + fallback.characters.value.Keys
      && (forall c | c in primary.characters.value ::
            r.value.characters.value[c] == primary.characters.value[c])
      && (forall c | c in fallback.characters.value && c !in primary.characters.value ::
            r.value.characters.value[c] == fallback.characters.value[c])
  {
    if fallback.characters.None? then Err(CharactersMissing)
    else if fallback.characters.value == map[] then Ok(primary)
    else if primary.characters.None? then Err(CharactersMissing)
    else Ok(primary.(characters := Some(FillMissing(primary.characters.value, fallback.characters.value))))
  }

  /** Merging the same fallback into an already merged face changes nothing. */
  lemma MergeFaceIdempotent(primary: Face, fallback: Face)
    requires MergeFace(primary, fallback).Ok?
    ensures MergeFace(MergeFace(primary, fallback).value, fallback) == MergeFace(primary, fallback)
  {
    if fallback.characters.value != map[] {
      FillMissingIdempotent(primary.characters.value, fallback.characters.value);
    }
  }

  /** The loaded face plus the widget's `Face` attribute afterwards, which
      names the fallback once the fallback file has loaded. */
  datatype Loaded = Loaded(glyphs: Face, faceName: string)

  /** The fallback is merged in: its name differs from the face's own name,
      and it loaded as a non-empty object. */
  predicate MergesFallback(load: (string, string) -> Option<Face>, name: string, family: string)
    requires load(name, family).Some?
  {
    var fallbackName := FallbackName(load(name, family).value, name);
    && fallbackName != name
    && load(fallbackName, family).Some?
    && Truthy(load(fallbackName, family).value)
  }

  /** `load_glyphs(Face, Family)`. */
  function LoadGlyphs(load: (string, string) -> Option<Face>, name: string, family: string)
    : (r: Result<Loaded, Fault>)
    ensures load(name, family).None? <==> r == Err(FaceNotLoaded)
    ensures load(name, family).Some? && !MergesFallback(load, name, family) ==>
      r.Ok? && r.value.glyphs == load(name, family).value
    ensures load(name, family).Some? && MergesFallback(load, name, family) ==>
      var fallbackName := FallbackName(load(name, family).value, name);
      var merged := MergeFace(load(name, family).value, load(fallbackName, family).value);
      && (merged.Err? ==> r == Err(merged.error))
      && (merged.Ok? ==> r == Ok(Loaded(merged.value, fallbackName)))
    ensures r.Ok? ==>
      var fallbackName := FallbackName(load(name, family).value, name);
      r.value.faceName ==
        if fallbackName != name && load(fallbackName, family).Some? then fallbackName else name
  {
    match load(name, family)
    case None => Err(FaceNotLoaded)
    case Some(primary) =>
      var fallbackName := FallbackName(primary, name);
      if fallbackName == name then Ok(Loaded(primary, name))
      else
        match load(fallbackName, family)
        case None => Ok(Loaded(primary, name))
        case Some(fallback) =>
          if !Truthy(fallback) then Ok(Loaded(primary, fallbackName))
          else
            match MergeFace(primary, fallback)
            case Err(e) => Err(e)
            case Ok(merged) => Ok(Loaded(merged, fallbackName))
  }

  /** A loaded face keeps every key and entry its own file had, gains
      exactly the fallback's keys, and differs from its file in nothing but
      the character map. */
  lemma LoadGlyphsKeepsPrimary(load: (string, string) -> Option<Face>, name: string, family: string)
    requires LoadGlyphs(load, name, family).Ok?
    ensures load(name, family).Some?
    ensures var primary := load(name, family).value;
      var glyphs := LoadGlyphs(load, name, family).value.glyphs;
      && glyphs.(characters := primary.characters) == primary
      && (primary.characters.Some? ==>
            && glyphs.characters.Some?
            && primary.characters.value.Keys <= glyphs.characters.value.Keys
            && forall c | c in primary.characters.value ::
                 glyphs.characters.value[c] == primary.characters.value[c])
    ensures MergesFallback(load, name, family) ==>
      var primary := load(name, family).value;
      var fallback := load(FallbackName(primary, name), family).value;
      var glyphs := LoadGlyphs(load, name, family).value.glyphs;
      primary.characters.Some? ==>
        glyphs.characters.value.Keys == primary.characters.value.Keys + fallback.characters.value.Keys
  {
  }
}

=== FILE: padding.dfy ===
/** Horizontal and vertical placement of one glyph inside its supercell, and
    the tracking "wedge" between it and the previous glyph (glyphs.py,
    en_glyph). Python's `math.ceil`/`math.floor` of `d / 2.0` are written with
    Dafny's division, which for the positive divisor 2 rounds down like
    Python's floor. */
module Padding {

  /** `math.ceil(x)`. */
  function Ceil(x: real): (r: int)
    ensures (r - 1) as real < x <= r as real
  {
    -((-x).Floor)
  }

  /** `math.floor(d / 2.0)`. */
  function FloorHalf(d: int): (r: int)
    ensures r == (d as real / 2.0).Floor
    ensures 2 * r <= d < 2 * r + 2
  {
    d / 2
  }

  /** `math.ceil(d / 2.0)`. */
  function CeilHalf(d: int): (r: int)
    ensures r == Ceil(d as real / 2.0)
    ensures 2 * r - 2 < d <= 2 * r
  {
    d - d / 2
  }

  /** Left and right padding of a glyph `columns` wide in a cell `width`
      wide, before any wedge. Only monospace glyphs are padded. Centring
      gives the extra odd column to the left after a space and to the right
      after anything else. */
  function HorizontalPad(monospace: bool, halign: string, width: int, columns: int, prev: char)
    : (p: (int, int))
    ensures !monospace ==> p == (0, 0)
    ensures monospace ==> p.0 + columns + p.1 == width
    ensures monospace && halign == "left" ==> p.0 == 0
    ensures monospace && halign == "right" ==> p.1 == 0
    ensures monospace && halign != "left" && halign != "right" && prev == ' ' ==>
      0 <= p.0 - p.1 <= 1
    ensures monospace && halign != "left" && halign != "right" && prev != ' ' ==>
      0 <= p.1 - p.0 <= 1
  {
    if !monospace then (0, 0)
    else if halign == "left" then (0, width - columns)
    else if halign == "right" then (width - columns, 0)
    else
      var slack := width - columns;
      if prev == ' ' then (CeilHalf(slack), FloorHalf(slack))
      else (FloorHalf(slack), CeilHalf(slack))
  }

  /** Columns of tracking inserted before the current glyph: zero when the
      pair `prev`+`token` is an adjacent pair or tracking is not positive.
      Otherwise the gap is the tracking itself when both glyphs allow
      kerning, and the tracking less the previous glyph's columns when either
      does not; only a positive rounded-up gap is inserted. */
  function Wedge(pairs: set<string>, prev: char, token: char, tracking: real,
                 kerning: bool, lastKerning: bool, lastColumns: int): (w: nat)
    ensures [prev, token] in pairs || tracking <= 0.0 ==> w == 0
    ensures [prev, token] !in pairs && tracking > 0.0 ==>
      var gap := if kerning && lastKerning then tracking else tracking - lastColumns as real;
      && (w > 0 ==> (w - 1) as real < gap <= w as real)
      && (w == 0 ==> gap <= 0.0)
  {
    if [prev, token] in pairs || tracking <= 0.0 then 0
    else
      var wedge := if kerning && lastKerning then Ceil(tracking) else Ceil(tracking - lastColumns as real);
      if wedge > 0 then wedge else 0
  }

  /** Under left alignment the wedge widens the right pad; under any other
      alignment the left pad. */
  function AddWedge(pad: (int, int), halign: string, wedge: nat): (p: (int, int))
    ensures p.0 + p.1 == pad.0 + pad.1 + wedge
    ensures p.0 >= pad.0 && p.1 >= pad.1
    ensures halign == "left" ==> p.0 == pad.0
    ensures halign != "left" ==> p.1 == pad.1
  {
    if halign == "left" then (pad.0, pad.1 + wedge) else (pad.0 + wedge, pad.1)
  }

  /** Top and bottom padding of a glyph `lines` tall in a cell `height`
      tall. A centred glyph puts the extra odd row on top. */
  function VerticalPad(valign: string, height: int, lines: int): (p: (int, int))
    ensures p.0 + lines + p.1 == height
    ensures lines == height ==> p == (0, 0)
    ensures lines != height && valign == "top" ==> p.0 == 0
    ensures lines != height && valign == "bottom" ==> p.1 == 0
    ensures lines != height && valign != "top" && valign != "bottom" ==> 0 <= p.0 - p.1 <= 1
  {
    if lines == height then (0, 0)
    else if valign == "top" then (0, height - lines)
    else if valign == "bottom" then (height - lines, 0)
    else (CeilHalf(height - lines), FloorHalf(height - lines))
  }
}

=== FILE: strips.dfy ===
/** From rendered segments to screen lines (glyphs.py, EnGlyph._prechunk and
    EnGlyph._chunks_to_strips): every segment the console renders becomes a
    chunk of `fixed lines` segments, the trailing newline's chunk is
    dropped, and the pile of chunks is transposed into one line per row. */
module Strips {
  import opened Wrappers
  import opened Faces
  import opened Supercell

  /** Line `n` of a chunk pile: the `n`-th segment of each chunk that has
      one, in chunk order. */
  function Column<T>(chunks: seq<seq<T>>, n: int): seq<T> {
    if chunks == [] then []
    else
      var last := chunks[|chunks| - 1];
      Column(chunks[..|chunks| - 1], n) + (if 0 <= n < |last| then [last[n]] else [])
  }

  /** Every chunk is `width` segments tall. */
  predicate Rectangular<T>(chunks: seq<seq<T>>, width: nat) {
    forall k | 0 <= k < |chunks| :: |chunks[k]| == width
  }

  /** The transposed pile: as many lines as the first chunk has segments.
      There must be a first chunk, and no chunk may be taller than it. */
  function Transpose<T>(chunks: seq<seq<T>>): (r: Result<seq<seq<T>>, Fault>)
    ensures chunks == [] ==> r == Err(NothingRendered)
    ensures r.Ok? <==> chunks != [] && forall k | 0 <= k < |chunks| :: |chunks[k]| <= |chunks[0]|
    ensures r.Err? ==> r.error in {NothingRendered, ChunkOverflow}
    ensures r.Ok? ==> |r.value| == |chunks[0]|
  {
    if chunks == [] then Err(NothingRendered)
    else if exists k | 0 <= k < |chunks| :: |chunks[k]| > |chunks[0]| then Err(ChunkOverflow)
    else Ok(seq(|chunks[0]|, n => Column(chunks, n)))
  }

  /** In a rectangular pile, line `n` holds exactly the `n`-th segment of
      every chunk. */
  lemma {:induction false} ColumnOfRectangular<T>(chunks: seq<seq<T>>, width: nat, n: int)
    requires Rectangular(chunks, width) && 0 <= n < width
    ensures |Column(chunks, n)| == |chunks|
    ensures forall k | 0 <= k < |chunks| :: Column(chunks, n)[k] == chunks[k][n]
    decreases |chunks|
  {
    if chunks != [] {
      ColumnOfRectangular(chunks[..|chunks| - 1], width, n);
    }
  }

  /** Transposing a non-empty rectangular pile swaps the two indices. */
  lemma TransposeRectangular<T>(chunks: seq<seq<T>>, width: nat)
    requires chunks != [] && Rectangular(chunks, width)
    ensures Transpose(chunks).Ok?
    ensures var lines := Transpose(chunks).value;
      && |lines| == width
      && Rectangular(lines, |chunks|)
      && forall n, k | 0 <= n < width && 0 <= k < |chunks| :: lines[n][k] == chunks[k][n]
  {
    forall n | 0 <= n < width
      ensures |Column(chunks, n)| == |chunks|
      ensures forall k | 0 <= k < |chunks| :: Column(chunks, n)[k] == chunks[k][n]
    {
      ColumnOfRectangular(chunks, width, n);
    }
  }

  /** Transposing twice gives back a non-empty rectangular pile. */
  lemma TransposeTwice<T>(chunks: seq<seq<T>>, width: nat)
    requires chunks != [] && width > 0 && Rectangular(chunks, width)
    ensures Transpose(chunks).Ok?
    ensures Transpose(Transpose(chunks).value) == Ok(chunks)
  {
    TransposeRectangular(chunks, width);
    var lines := Transpose(chunks).value;
    TransposeRectangular(lines, |chunks|);
    var back := Transpose(lines).value;
    assert |back| == |chunks|;
    forall k | 0 <= k < |chunks|
      ensures back[k] == chunks[k]
    {
      assert |back[k]| == width == |chunks[k]|;
      forall n | 0 <= n < width
        ensures back[k][n] == chunks[k][n]
      {
        assert back[k][n] == lines[n][k];
      }
    }
    assert back == chunks;
  }

  /** `_chunks_to_strips`: appends each chunk's `n`-th segment to line `n`,
      chunk by chunk; a segment beyond the first chunk's height fails. */
  method ChunksToStrips<T>(chunks: seq<seq<T>>) returns (r: Result<seq<seq<T>>, Fault>)
    ensures r == Transpose(chunks)
  {
    if chunks == [] {
      return Err(NothingRendered);
    }
    var lines: seq<seq<T>> := seq(|chunks[0]|, _ => []);
    var k := 0;
    while k < |chunks|
      invariant 0 <= k <= |chunks|
      invariant |lines| == |chunks[0]|
      invariant forall j | 0 <= j < k :: |chunks[j]| <= |chunks[0]|
      invariant forall m | 0 <= m < |lines| :: lines[m] == Column(chunks[..k], m)
    {
      var chunk := chunks[k];
      var n := 0;
      while n < |chunk|
        invariant 0 <= n <= |chunk| && n <= |lines|
        invariant |lines| == |chunks[0]|
        invariant forall m | 0 <= m < |lines| ::
          lines[m] == Column(chunks[..k], m) + (if m < n then [chunk[m]] else [])
      {
        if n >= |lines| {
          return Err(ChunkOverflow);
        }
        lines := lines[n := lines[n] + [chunk[n]]];
        n := n + 1;
      }
      assert chunks[..k + 1][..k] == chunks[..k];
      k := k + 1;
    }
    assert chunks[..k] == chunks;
    assert lines == seq(|chunks[0]|, n => Column(chunks, n));
    return Ok(lines);
  }

  /** The characters of all rendered segments, in order. */
  function Joined<S>(segs: seq<(string, S)>): string {
    if segs == [] then [] else segs[0].0 + Joined(segs[1..])
  }

  /** en_glyph over each rendered segment in turn, threading the previous
      token from one segment to the next. */
  function RenderChunks<S>(face: Face, bold: bool, prev: char, segs: seq<(string, S)>)
    : (r: Result<seq<seq<Segment<S>>>, Fault>)
    ensures r.Ok? ==> |r.value| == |segs|
    ensures r.Ok? && segs != [] ==>
      && face.fixedLines.Some?
      && forall k | 0 <= k < |segs| :: |r.value[k]| == face.fixedLines.value
    ensures r.Ok? ==>
      forall k, n | 0 <= k < |segs| && 0 <= n < |r.value[k]| :: r.value[k][n].style == segs[k].1
    decreases |segs|
  {
    if segs == [] then Ok([])
    else
      match EnGlyph(face, bold, prev, segs[0].0, segs[0].1)
      case Err(e) => Err(e)
      case Ok((chunk, last)) =>
        match RenderChunks(face, bold, last, segs[1..])
        case Err(e) => Err(e)
        case Ok(rest) => Ok([chunk] + rest)
  }

  /** `_prechunk` followed by `_chunks_to_strips`: renders the segments in
      order, the previous token starting from a space once per render and
      carried across segments, drops the last chunk (the console's trailing
      newline) and transposes the rest into lines. */
  function Prechunk<S>(face: Face, bold: bool, segs: seq<(string, S)>)
    : (r: Result<seq<seq<Segment<S>>>, Fault>)
    ensures |segs| <= 1 ==> r.Err?
    ensures r.Ok? ==> face.fixedLines.Some? && |r.value| == face.fixedLines.value
    ensures r.Ok? ==> forall n | 0 <= n < |r.value| :: |r.value[n]| == |segs| - 1
    ensures r.Ok? ==>
      forall n, k | 0 <= n < |r.value| && 0 <= k < |r.value[n]| :: r.value[n][k].style == segs[k].1
  {
    var chunks :- RenderChunks(face, bold, ' ', segs);
    if chunks == [] then Err(NothingRendered)
    else
      var kept := chunks[..|chunks| - 1];
      TransposeKeepsStyles(kept, segs);
      Transpose(kept)
  }

  /** Transposing chunks that are each styled by their own segment styles
      every line's `k`-th segment by segment `k`. */
  lemma TransposeKeepsStyles<S>(kept: seq<seq<Segment<S>>>, segs: seq<(string, S)>)
    requires |kept| <= |segs|
    requires forall k | 0 <= k < |kept| :: |kept[k]| == |kept[0]|
    requires forall k, n | 0 <= k < |kept| && 0 <= n < |kept[k]| :: kept[k][n].style == segs[k].1
    ensures Transpose(kept).Ok? ==>
      var lines := Transpose(kept).value;
      && (forall n | 0 <= n < |lines| :: |lines[n]| == |kept|)
      && forall n, k | 0 <= n < |lines| && 0 <= k < |kept| :: lines[n][k].style == segs[k].1
  {
    if kept != [] {
      TransposeRectangular(kept, |kept[0]|);
      var lines: seq<seq<Segment<S>>> := Transpose(kept).value;
      forall n, k | 0 <= n < |lines| && 0 <= k < |kept|
        ensures lines[n][k].style == segs[k].1
      {
        assert lines[n][k] == kept[k][n] && n < |kept[k]|;
      }
    }
  }

  /** A successful Prechunk is the transpose of all chunks but the last. */
  lemma PrechunkTransposes<S>(face: Face, bold: bool, segs: seq<(string, S)>)
    requires Prechunk(face, bold, segs).Ok?
    ensures RenderChunks(face, bold, ' ', segs).Ok?
    ensures |RenderChunks(face, bold, ' ', segs).value| >= 2
    ensures var chunks := RenderChunks(face, bold, ' ', segs).value;
      Prechunk(face, bold, segs) == Transpose(chunks[..|chunks| - 1])
  {
  }

  /** The last token after `s + t` follows from the last token after `s`. */
  lemma LastTokenJoins(prev: char, s: string, t: string)
    ensures LastToken(prev, s + t) == LastToken(LastToken(prev, s), t)
  {
  }

  /** Chunk `k` is en_glyph of segment `k` with, as previous token, the last
      character rendered before it (or the starting token). */
  lemma {:induction false} RenderChunksThreadsPrev<S>(face: Face, bold: bool, prev: char, segs: seq<(string, S)>)
    requires RenderChunks(face, bold, prev, segs).Ok?
    ensures forall k | 0 <= k < |segs| ::
      EnGlyph(face, bold, LastToken(prev, Joined(segs[..k])), segs[k].0, segs[k].1)
      == Ok((RenderChunks(face, bold, prev, segs).value[k], LastToken(prev, Joined(segs[..k + 1]))))
    decreases |segs|
  {
    if segs != [] {
      var first := EnGlyph(face, bold, prev, segs[0].0, segs[0].1).value;
      var rest := segs[1..];
      RenderChunksThreadsPrev(face, bold, first.1, rest);
      forall k | 0 <= k < |segs|
        ensures EnGlyph(face, bold, LastToken(prev, Joined(segs[..k])), segs[k].0, segs[k].1)
          == Ok((RenderChunks(face, bold, prev, segs).value[k], LastToken(prev, Joined(segs[..k + 1]))))
      {
        assert segs[..1] == [segs[0]];
        assert Joined(segs[..1]) == segs[0].0 by {
          assert segs[..1][1..] == [];
        }
        if k > 0 {
          assert segs[..k][1..] == rest[..k - 1];
          assert segs[..k + 1][1..] == rest[..k];
          assert Joined(segs[..k]) == segs[0].0 + Joined(rest[..k - 1]);
          assert Joined(segs[..k + 1]) == segs[0].0 + Joined(rest[..k]);
          LastTokenJoins(prev, segs[0].0, Joined(rest[..k - 1]));
          LastTokenJoins(prev, segs[0].0, Joined(rest[..k]));
        }
      }
    }
  }

  /** The previous token when segment `k` of a render starts: the last
      character of the segments before it, or the space every render starts
      from. */
  function PrevBefore<S>(segs: seq<(string, S)>, k: nat): char
    requires k <= |segs|
  {
    LastToken(' ', Joined(segs[..k]))
  }

  /** en_glyph applied to segment `k` of a render in isolation. */
  function SegmentChunk<S>(face: Face, bold: bool, segs: seq<(string, S)>, k: nat)
    : Result<(seq<Segment<S>>, char), Fault>
    requires k < |segs|
  {
    EnGlyph(face, bold, PrevBefore(segs, k), segs[k].0, segs[k].1)
  }

  /** Chunk `k` of a render from a space is segment `k` rendered in
      isolation after the text that precedes it. */
  lemma ChunkFromSpace<S>(face: Face, bold: bool, segs: seq<(string, S)>, k: nat)
    requires RenderChunks(face, bold, ' ', segs).Ok? && k < |segs|
    ensures SegmentChunk(face, bold, segs, k)
      == Ok((RenderChunks(face, bold, ' ', segs).value[k], PrevBefore(segs, k + 1)))
  {
    RenderChunksThreadsPrev(face, bold, ' ', segs);
  }

  /** Line `n`, segment `k` of the screen is row `n` of en_glyph applied to
      segment `k`, with the previous token being the last character of the
      text before it, starting from a space on every render. */
  lemma PrechunkLines<S>(face: Face, bold: bool, segs: seq<(string, S)>)
    requires Prechunk(face, bold, segs).Ok?
    ensures forall k | 0 <= k < |segs| - 1 :: SegmentChunk(face, bold, segs, k).Ok?
    ensures var lines := Prechunk(face, bold, segs).value;
      forall n, k | 0 <= n < |lines| && 0 <= k < |segs| - 1 ::
        lines[n][k] == SegmentChunk(face, bold, segs, k).value.0[n]
  {
    PrechunkTransposes(face, bold, segs);
    var chunks := RenderChunks(face, bold, ' ', segs).value;
    var kept := chunks[..|chunks| - 1];
    var lines := Transpose(kept).value;
    TransposeRectangular(kept, |kept[0]|);
    forall k | 0 <= k < |segs| - 1
      ensures SegmentChunk(face, bold, segs, k) == Ok((chunks[k], PrevBefore(segs, k + 1)))
    {
      ChunkFromSpace(face, bold, segs, k);
    }
    forall n, k | 0 <= n < |lines| && 0 <= k < |segs| - 1
      ensures lines[n][k] == SegmentChunk(face, bold, segs, k).value.0[n]
    {
      assert lines[n][k] == kept[k][n];
      assert kept[k] == chunks[k];
    }
    assert Prechunk(face, bold, segs).value == lines;
  }
}

=== FILE: supercell.dfy ===
/** The supercell layout engine (glyphs.py, EnGlyph.en_glyph): each input
    character is resolved to a glyph and hints, padded into a cell
    `fixed lines` tall, and appended as one slice to each of the
    `fixed lines` row accumulators. */
module Supercell {
  import opened Wrappers
  import opened Faces
  import opened DefaultGlyph
  import opened Padding

  /** A rich `Segment`: text with an opaque style. */
  datatype Segment<S> = Segment(text: string, style: S)

  /** Per-character hints after falling back to the face defaults. */
  datatype Hints = Hints(
    tracking: real,
    monospace: bool,
    lines: int,
    columns: int,
    align: Align,
    kerning: bool
  )

  /** Where one glyph goes in its supercell: the side pads (wedge included),
      the top pad, the glyph's height and width, and its rows (None when the
      glyph resolved to a mapping that cannot be indexed). */
  datatype Layout = Layout(left: int, right: int, top: int, lines: int, columns: int,
                           rows: Option<seq<string>>)

  function Max0(n: int): nat {
    if n > 0 then n else 0
  }

  /** `" " * n`, which is empty for n <= 0. */
  function Spaces(n: int): (s: string)
    ensures |s| == Max0(n)
  {
    seq(Max0(n), _ => ' ')
  }

  /** The face's entry for `token`; a character the face lacks gets the
      synthesised box glyph and no overrides. */
  function EntryFor(box: Box, token: char): (e: CharEntry)
    ensures token in box.characters ==> e == box.characters[token]
    ensures token !in box.characters ==>
      && e.glyph == Some(Flat(DefaultRows(token)))
      && e.lines.None? && e.columns.None? && e.align.None?
      && e.tracking.None? && e.monospace.None? && e.kerning.None?
  {
    if token in box.characters then box.characters[token] else DefaultEntry(token)
  }

  /** Every hint the entry omits falls back to the face default; kerning
      defaults to allowed. */
  function HintsFor(box: Box, e: CharEntry): (h: Hints)
    ensures e.tracking.Some? ==> h.tracking == e.tracking.value
    ensures e.tracking.None? ==> h.tracking == box.tracking
    ensures e.monospace.Some? ==> h.monospace == e.monospace.value
    ensures e.monospace.None? ==> h.monospace == box.monospace
    ensures e.lines.Some? ==> h.lines == e.lines.value
    ensures e.lines.None? ==> h.lines == box.height
    ensures e.columns.Some? ==> h.columns == e.columns.value
    ensures e.columns.None? ==> h.columns == box.width
    ensures e.align.Some? ==> h.align == e.align.value
    ensures e.align.None? ==> h.align == box.align
    ensures h.kerning == (e.kerning.None? || e.kerning.value)
  {
    Hints(e.tracking.GetOr(box.tracking), e.monospace.GetOr(box.monospace),
          e.lines.GetOr(box.height), e.columns.GetOr(box.width),
          e.align.GetOr(box.align), e.kerning.GetOr(true))
  }

  /** A character the face lacks is drawn with the box glyph and exactly the
      face's own hints, whatever its weight. */
  lemma MissingCharacterUsesFace(box: Box, bold: bool, token: char)
    requires token !in box.characters
    ensures HintsFor(box, EntryFor(box, token))
      == Hints(box.tracking, box.monospace, box.height, box.width, box.align, true)
    ensures GlyphRows(EntryFor(box, token), bold) == Some(DefaultRows(token))
  {
  }

  /** The tracking wedge before `token` after `prev`. The previous
      character's kerning flag and width come from its face entry only: a
      character the face lacks allows kerning and has the face's width,
      never its default glyph's. */
  function WedgeFor(box: Box, prev: char, token: char): (w: nat)
    ensures var h := HintsFor(box, EntryFor(box, token));
      prev !in box.characters ==>
        w == Wedge(box.pairs, prev, token, h.tracking, h.kerning, true, box.width)
    ensures var h := HintsFor(box, EntryFor(box, token));
      prev in box.characters ==>
        var last := box.characters[prev];
        w == Wedge(box.pairs, prev, token, h.tracking, h.kerning,
                   last.kerning.None? || last.kerning.value,
                   if last.columns.Some? then last.columns.value else box.width)
  {
    var h := HintsFor(box, EntryFor(box, token));
    var lastKerning := if prev in box.characters then box.characters[prev].kerning.GetOr(true) else true;
    var lastColumns := if prev in box.characters then box.characters[prev].columns.GetOr(box.width) else box.width;
    Wedge(box.pairs, prev, token, h.tracking, h.kerning, lastKerning, lastColumns)
  }

  /** Placement of `token` after `prev`: the glyph with its hinted height
      and width, its side pads (wedge included) and its top pad. */
  function LayoutFor(box: Box, bold: bool, prev: char, token: char): Layout
  {
    var e := EntryFor(box, token);
    var h := HintsFor(box, e);
    var pad := HorizontalPad(h.monospace, h.align.horizontal, box.width, h.columns, prev);
    var sides := AddWedge(pad, h.align.horizontal, WedgeFor(box, prev, token));
    var vertical := VerticalPad(h.align.vertical, box.height, h.lines);
    Layout(sides.0, sides.1, vertical.0, h.lines, h.columns, GlyphRows(e, bold))
  }

  /** The cell holds the glyph at its hinted size: a monospace glyph's pads
      fill the cell up to `fixed columns` plus the wedge, a proportional
      glyph's pads are the wedge alone, centring gives the odd column to the
      left only after a space, and the top pad follows the vertical
      alignment. */
  lemma LayoutGeometry(box: Box, bold: bool, prev: char, token: char)
    ensures var e := EntryFor(box, token);
      var h := HintsFor(box, e);
      var lay := LayoutFor(box, bold, prev, token);
      && lay.lines == h.lines && lay.columns == h.columns
      && lay.rows == GlyphRows(e, bold)
    ensures var h := HintsFor(box, EntryFor(box, token));
      var lay := LayoutFor(box, bold, prev, token);
      var wedge := WedgeFor(box, prev, token);
      && (h.monospace ==> lay.left + h.columns + lay.right == box.width + wedge)
      && (!h.monospace ==> lay.left + lay.right == wedge)
    ensures var h := HintsFor(box, EntryFor(box, token));
      var lay := LayoutFor(box, bold, prev, token);
      && (h.align.horizontal == "left" ==> lay.left == 0)
      && (h.align.horizontal != "left" && (h.align.horizontal == "right" || !h.monospace) ==> lay.right == 0)
    ensures var h := HintsFor(box, EntryFor(box, token));
      var lay := LayoutFor(box, bold, prev, token);
      var before := lay.left - WedgeFor(box, prev, token);
      h.monospace && h.align.horizontal != "left" && h.align.horizontal != "right" ==>
        && (prev == ' ' ==> 0 <= before - lay.right <= 1)
        && (prev != ' ' ==> 0 <= lay.right - before <= 1)
    ensures var h := HintsFor(box, EntryFor(box, token));
      var top := LayoutFor(box, bold, prev, token).top;
      && (h.lines == box.height ==> top == 0)
      && (h.lines != box.height && h.align.vertical == "top" ==> top == 0)
      && (h.lines != box.height && h.align.vertical == "bottom" ==> top == box.height - h.lines)
      && (h.lines != box.height && h.align.vertical != "top" && h.align.vertical != "bottom" ==>
            0 <= 2 * top - (box.height - h.lines) <= 1)
  {
  }

  /** Row `r` falls inside the glyph's rows rather than its top or bottom pad. */
  predicate InBand(lay: Layout, r: int) {
    lay.top <= r < lay.top + lay.lines
  }

  /** Row `r` needs a glyph row the glyph does not have. */
  predicate Unindexable(lay: Layout, r: int) {
    InBand(lay, r) && (lay.rows.None? || r - lay.top >= |lay.rows.value|)
  }

  /** The text appended to row `r`: the pads around either a blank run of
      the glyph's width or the glyph's row `r - top`. */
  function Slice(lay: Layout, r: int): string
    requires !Unindexable(lay, r)
  {
    Spaces(lay.left)
    + (if InBand(lay, r) then lay.rows.value[r - lay.top] else Spaces(lay.columns))
    + Spaces(lay.right)
  }

  /** Appends `token`'s slices to the row accumulators `acc`. Fails exactly
      when some row needs a glyph row that is not there. */
  function PlaceToken(box: Box, bold: bool, prev: char, token: char, acc: seq<string>)
    : (r: Result<seq<string>, Fault>)
    ensures var lay := LayoutFor(box, bold, prev, token);
      r.Err? <==> exists i | 0 <= i < |acc| :: Unindexable(lay, i)
    ensures r.Err? ==> r.error == GlyphRowMissing(token)
    ensures r.Ok? ==> |r.value| == |acc|
  {
    var lay := LayoutFor(box, bold, prev, token);
    if exists i | 0 <= i < |acc| :: Unindexable(lay, i) then
      Err(GlyphRowMissing(token))
    else
      Ok(seq(|acc|, i requires 0 <= i < |acc| => acc[i] + Slice(lay, i)))
  }

  /** The four parts of `a + l + m + z`, read back by position. */
  lemma ConcatParts(a: string, l: string, m: string, z: string)
    ensures var s := a + l + m + z;
      && |s| == |a| + |l| + |m| + |z|
      && s[..|a|] == a
      && s[|a|..|a| + |l|] == l
      && s[|a| + |l|..|s| - |z|] == m
      && s[|s| - |z|..] == z
  {
    var s := a + l + m + z;
    assert s[..|a|] == a;
    assert s[|a|..|a| + |l|] == l;
    assert s[|a| + |l|..|s| - |z|] == m;
    assert s[|s| - |z|..] == z;
  }

  /** A row that gained the slice of row `i` of layout `lay`: its old text,
      then the left pad, then the glyph's row `i - top` (inside the glyph
      band) or a blank run of the glyph's width (outside it), then the right
      pad. */
  predicate HoldsSlice(lay: Layout, i: int, before: string, row: string) {
    && !Unindexable(lay, i)
    && |row| == |before| + Max0(lay.left) + Max0(lay.right)
         + (if InBand(lay, i) then |lay.rows.value[i - lay.top]| else Max0(lay.columns))
    && row[..|before|] == before
    && row[|before|..|before| + Max0(lay.left)] == Spaces(lay.left)
    && row[|row| - Max0(lay.right)..] == Spaces(lay.right)
    && (InBand(lay, i) ==>
          row[|before| + Max0(lay.left)..|row| - Max0(lay.right)] == lay.rows.value[i - lay.top])
    && (!InBand(lay, i) ==>
          row[|before| + Max0(lay.left)..|row| - Max0(lay.right)] == Spaces(lay.columns))
  }

  /** Appending `Slice(lay, i)` puts exactly those parts after the old text. */
  lemma SliceParts(lay: Layout, i: int, before: string)
    requires !Unindexable(lay, i)
    ensures HoldsSlice(lay, i, before, before + Slice(lay, i))
  {
    var mid := if InBand(lay, i) then lay.rows.value[i - lay.top] else Spaces(lay.columns);
    assert before + Slice(lay, i) == before + Spaces(lay.left) + mid + Spaces(lay.right);
    ConcatParts(before, Spaces(lay.left), mid, Spaces(lay.right));
  }

  /** Row `i` after placing `token` holds its old text followed by the
      token's slice for that row. */
  lemma PlaceTokenRow(box: Box, bold: bool, prev: char, token: char, acc: seq<string>, i: int)
    requires PlaceToken(box, bold, prev, token, acc).Ok? && 0 <= i < |acc|
    ensures HoldsSlice(LayoutFor(box, bold, prev, token), i, acc[i],
                       PlaceToken(box, bold, prev, token, acc).value[i])
  {
    var lay := LayoutFor(box, bold, prev, token);
    assert !Unindexable(lay, i);
    assert PlaceToken(box, bold, prev, token, acc).value[i] == acc[i] + Slice(lay, i);
    SliceParts(lay, i, acc[i]);
  }

  /** The previous token after a run of text: its last character, or the
      incoming previous token when the text is empty. */
  function LastToken(prev: char, text: string): char {
    if text == [] then prev else text[|text| - 1]
  }

  /** Places every character of `text` in order, threading the previous
      token; returns the accumulators and the final previous token. */
  function Compose(box: Box, bold: bool, prev: char, text: string, acc: seq<string>)
    : (r: Result<(seq<string>, char), Fault>)
    ensures r.Ok? ==> |r.value.0| == |acc|
    ensures r.Ok? ==> r.value.1 == LastToken(prev, text)
    ensures r.Err? ==> exists k | 0 <= k < |text| :: r.error == GlyphRowMissing(text[k])
    ensures |acc| == 0 ==> r == Ok((acc, LastToken(prev, text)))
    decreases |text|
  {
    if text == [] then Ok((acc, prev))
    else
      match PlaceToken(box, bold, prev, text[0], acc)
      case Err(e) => Err(e)
      case Ok(next) => Compose(box, bold, text[0], text[1..], next)
  }

  /** Composing one character is placing it, after which it is the
      previous token. With `ComposeSplits` this pins every composition to
      `PlaceToken`, character by character. */
  lemma ComposeOne(box: Box, bold: bool, prev: char, c: char, acc: seq<string>)
    ensures Compose(box, bold, prev, [c], acc) ==
      match PlaceToken(box, bold, prev, c, acc)
      case Err(e) => Err(e)
      case Ok(next) => Ok((next, c))
  {
    assert [c][1..] == [];
  }

  /** `[''] * height`: the empty row accumulators en_glyph starts from. */
  function Blank(height: int): (rows: seq<string>)
    ensures |rows| == Max0(height)
    ensures forall i | 0 <= i < |rows| :: rows[i] == ""
  {
    seq(Max0(height), _ => "")
  }

  /** `en_glyph(text, style)`: composes `text` into exactly `fixed lines`
      segments, each carrying `style`, and returns the new previous token. */
  function EnGlyph<S>(face: Face, bold: bool, prev: char, text: string, style: S)
    : (r: Result<(seq<Segment<S>>, char), Fault>)
    ensures Required(face).Err? ==> r == Err(MissingFaceData)
    ensures Required(face).Ok? && face.fixedLines.value < 0 ==> r == Err(RowCountMismatch)
    ensures r.Ok? ==> |r.value.0| == face.fixedLines.value
    ensures r.Ok? ==> forall i | 0 <= i < |r.value.0| :: r.value.0[i].style == style
    ensures r.Ok? ==> r.value.1 == LastToken(prev, text)
    ensures Required(face).Ok? ==>
      var c := Compose(Required(face).value, bold, prev, text, Blank(face.fixedLines.value));
      && (c.Err? ==> r == Err(c.error))
      && (c.Ok? && face.fixedLines.value >= 0 ==>
            && r.Ok?
            && forall i | 0 <= i < |r.value.0| :: r.value.0[i].text == c.value.0[i])
    ensures Required(face).Ok? && face.fixedLines.value >= 0 && text == [] ==>
      && r.Ok?
      && forall i | 0 <= i < |r.value.0| :: r.value.0[i].text == ""
  {
    match Required(face)
    case Err(e) => Err(e)
    case Ok(box) =>
      var start := Blank(box.height);
      match Compose(box, bold, prev, text, start)
      case Err(e) => Err(e)
      case Ok((rows, last)) =>
        if |rows| != box.height then Err(RowCountMismatch)
        else Ok((seq(|rows|, i requires 0 <= i < |rows| => Segment(rows[i], style)), last))
  }

  /** All accumulator rows have the same length. */
  predicate EvenRows(acc: seq<string>) {
    forall i, j | 0 <= i < |acc| && 0 <= j < |acc| :: |acc[i]| == |acc[j]|
  }

  /** The glyph `token` resolves to has at least its hinted number of rows,
      each exactly its hinted width. */
  predicate Fits(box: Box, bold: bool, token: char) {
    var e := EntryFor(box, token);
    var h := HintsFor(box, e);
    var rows := GlyphRows(e, bold);
    && h.columns >= 0
    && rows.Some?
    && |rows.value| >= h.lines
    && forall k | 0 <= k < |rows.value| :: |rows.value[k]| == h.columns
  }

  /** The width one placed glyph adds to every row. */
  function SliceWidth(lay: Layout): nat {
    Max0(lay.left) + Max0(lay.columns) + Max0(lay.right)
  }

  /** Placing a fitting glyph cannot fail and grows every row by the same
      width, so rows of equal length stay of equal length. */
  lemma PlaceTokenKeepsRowsEven(box: Box, bold: bool, prev: char, token: char, acc: seq<string>)
    requires Fits(box, bold, token)
    ensures PlaceToken(box, bold, prev, token, acc).Ok?
    ensures var r := PlaceToken(box, bold, prev, token, acc).value;
      forall i | 0 <= i < |acc| :: |r[i]| == |acc[i]| + SliceWidth(LayoutFor(box, bold, prev, token))
    ensures EvenRows(acc) ==> EvenRows(PlaceToken(box, bold, prev, token, acc).value)
  {
  }

  /** Composing text whose every glyph fits keeps equal-length rows equal. */
  lemma {:induction false} ComposeKeepsRowsEven(box: Box, bold: bool, prev: char, text: string, acc: seq<string>)
    requires forall k | 0 <= k < |text| :: Fits(box, bold, text[k])
    requires EvenRows(acc)
    ensures Compose(box, bold, prev, text, acc).Ok?
    ensures EvenRows(Compose(box, bold, prev, text, acc).value.0)
    decreases |text|
  {
    if text != [] {
      PlaceTokenKeepsRowsEven(box, bold, prev, text[0], acc);
      var next := PlaceToken(box, bold, prev, text[0], acc).value;
      assert forall k | 0 <= k < |text[1..]| :: text[1..][k] == text[k + 1];
      ComposeKeepsRowsEven(box, bold, text[0], text[1..], next);
    }
  }

  /** Composing `s + t` is composing `s`, then composing `t` from where `s`
      left the rows, with `s`'s last character as the previous token: each
      character sees only the character just before it. */
  lemma {:induction false} ComposeSplits(box: Box, bold: bool, prev: char, s: string, t: string, acc: seq<string>)
    ensures Compose(box, bold, prev, s + t, acc) ==
      match Compose(box, bold, prev, s, acc)
      case Err(e) => Err(e)
      case Ok((rows, last)) => Compose(box, bold, last, t, rows)
    decreases |s|
  {
    if s == [] {
      assert s + t == t;
    } else {
      assert (s + t)[0] == s[0];
      assert (s + t)[1..] == s[1..] + t;
      match PlaceToken(box, bold, prev, s[0], acc)
      case Err(_) =>
      case Ok(next) => ComposeSplits(box, bold, s[0], s[1..], t, next);
    }
  }

  /** When every glyph of the text fits, en_glyph yields `fixed lines` segments of one common width. */
  lemma EnGlyphEvenRows<S>(face: Face, bold: bool, prev: char, text: string, style: S)
    requires Required(face).Ok? && face.fixedLines.value >= 0
    requires forall k | 0 <= k < |text| :: Fits(Required(face).value, bold, text[k])
    ensures EnGlyph(face, bold, prev, text, style).Ok?
    ensures var segs := EnGlyph(face, bold, prev, text, style).value.0;
      forall i, j | 0 <= i < |segs| && 0 <= j < |segs| :: |segs[i].text| == |segs[j].text|
  {
    var box := Required(face).value;
    ComposeKeepsRowsEven(box, bold, prev, text, Blank(box.height));
  }

  /** Centring alternates: after a space the odd column of slack goes left,
      and for the next glyph (after a non-space) it goes right. The wedge,
      whatever the tracking, only adds to the left pad. */
  lemma CentreBiasAlternates(box: Box, bold: bool, a: char, b: char)
    requires a != ' '
    requires var h := HintsFor(box, EntryFor(box, a));
      && h.monospace && h.align.horizontal != "left" && h.align.horizontal != "right"
      && (box.width - h.columns) % 2 == 1
    requires var h := HintsFor(box, EntryFor(box, b));
      && h.monospace && h.align.horizontal != "left" && h.align.horizontal != "right"
      && (box.width - h.columns) % 2 == 1
    ensures LayoutFor(box, bold, ' ', a).left - WedgeFor(box, ' ', a)
      == LayoutFor(box, bold, ' ', a).right + 1
    ensures LayoutFor(box, bold, a, b).right
      == LayoutFor(box, bold, a, b).left - WedgeFor(box, a, b) + 1
  {
  }
}

=== FILE: wrappers.dfy ===
/** Failure-compatible wrappers used throughout the model: an optional value
    (a JSON key that may be absent) and a result that either carries a value
    or the fault the Python code would raise. */
module Wrappers {

  datatype Option<+T> = None | Some(value: T) {

    /** The value, or `default` when absent (Python's `dict.get(key, default)`). */
    function GetOr(default: T): T {
      match this
      case Some(v) => v
      case None => default
    }
  }

  datatype Result<+T, +E> = Ok(value: T) | Err(error: E) {

    predicate IsFailure() {
      Err?
    }

    function PropagateFailure<U>(): Result<U, E>
      requires Err?
    {
      Err(error)
    }

    function Extract(): T
      requires Ok?
    {
      value
    }
  }
}
